=== FILE: README.md ===
# Composable navigator: the navigation path and its rules

This project models the core of a Swift navigation library in Dafny. The library describes navigation as data. The state is a *path*: an ordered sequence of identified, type-erased screens, with the root at index 0. A *router* reducer changes the path in response to six actions. *Path builders* match a path against a declared tree of screens and produce the content for its head plus a continuation for the rest. A *deeplink handler* turns a parsed deeplink into a `replace` of the whole path.

The modules follow the source files:

- `Wrappers`: Swift's `Optional`.
- `Seqs`: the generic forms of `firstIndex(where:)`, a tip-first search, and `reversed()`.
- `Screens` (`AnyScreen.swift`, `ScreenPresentationStyle.swift`): a screen is a type tag, a payload and a presentation style. `AnyScreen` boxes the whole screen together with a copy of its style. `unwrap` succeeds iff the tag matches, and `is` is equivalent to `unwrap != nil`, since both are the same cast.
- `Identity`: `ScreenID` (`Root | Fresh(n)`) and `IdentifiedScreen`.
- `PathElements` (`NavigationPathElement.swift`): the projections `id`, `ids()`, `content` and `hasAppeared`.
- `Router` (`RouterCore.swift`): `RouterState`, `RouterAction`, `screen(with:)`, `tail(from:)`, one path function per reducer case, and `Reduce` for `routerReducer`.
- `RouterProperties`: how the cases relate to one another, and the path invariant "non-empty, rooted, unique ids" preserved by each action.
- `RouterRuns`: reducing a sequence of actions with a counter as the id supply. Every path reachable from `RouterState(root:)`, by any actions, has unique ids and starts with `.root` whenever it is non-empty. Only non-emptiness depends on avoiding `replace(path: [])`.
- `PathBuilder` (`PathBuilder+Screen.swift`): the two leaf builders and `Routed`. Also a descent over the whole path that follows each match's continuation.
- `ControlFlow` (`NavigationTree+ControlFlow.swift`): `buildEither` and `buildOptional`.
- `IfLet` (`PathBuilder+IfLetStoreTests.swift`): the if-let and if-let-else builders over optional state. They are stated as the tests assert them, including which child builders are invoked.
- `Deeplinking` (`DeeplinkHandler.swift`): `handle(deeplink:)` with the parser as a parameter, and its composition with the reducer.

Inputs that the library takes from its environment become parameters:
- `RouterEnvironment.screenID` is an id supply `nat -> ScreenID`. Its k-th value is the k-th identifier drawn while one action is reduced. The reducer reports how many identifiers it drew.
- The deeplink parser is any function `Deeplink -> Option<seq<AnyScreen>>`.
- View content is a type parameter.
- `onAppear` closures are opaque tokens.

Some behaviours of the code that a reader might not expect; the model follows the code in each:
- `dismissSuccessor(of: id)` keeps elements `0..i` inclusive, where `i` is the first index of `id` (RouterCore.swift:120). The anchor stays and everything after it goes.
- `goBack(to:)` truncates at the *last* element equal to the target, because it scans the reversed path (RouterCore.swift:87-97). This disagrees with the doc comment at RouterCore.swift:37, which says "first occurrence".
- `replace(path: [])` leaves an empty path (RouterCore.swift:101-106). So non-emptiness, and only non-emptiness, is guaranteed just for runs that avoid that action; `ReplaceWithNothingEmptiesPath` states the exception. A later `go` on the empty path installs a new root without drawing an id (RouterCore.swift:73-79), so unique ids and a rooted head hold on every run.
- `didAppear` raises the flag of *every* element carrying the id (RouterCore.swift:124-131). On a valid path there is only one such element.

## Model

| member | source | states |
|---|---|---|
| `Seqs.FirstIndex` | Sources/ComposableRouter/Router/RouterCore.swift:21 | `firstIndex(where:)`: the result matches, no earlier element matches, and nil means that no element matches |
| `Seqs.FirstIndexFrom` | Sources/ComposableRouter/Router/RouterCore.swift:21 | the least matching index at or after a start position; nil iff there is none from there |
| `Seqs.LastIndex` | Sources/ComposableRouter/Router/RouterCore.swift:89-91 | the greatest matching index (nothing after it matches); nil iff no element matches |
| `Seqs.LastIndexBelow` | Sources/ComposableRouter/Router/RouterCore.swift:89-91 | the greatest matching index below a bound; nil iff there is none below it |
| `Seqs.Reverse` | Sources/ComposableRouter/Router/RouterCore.swift:87 | `reversed()`: same length, element k is element n-1-k of the input |
| `Seqs.ReversedSearchMisses` | Sources/ComposableRouter/Router/RouterCore.swift:89-93 | a failed search of the reversed path means that no element of the path matches |
| `Seqs.ReversedSearchFinds` | Sources/ComposableRouter/Router/RouterCore.swift:89-97 | a search of the reversed path stopping at i finds the last match (n-1-i), and reversing the rest gives the prefix through that match |
| `Seqs.LastIndexIsLastMatch` | Sources/ComposableRouter/Router/RouterCore.swift:89-91 | a match with no later match is exactly what the tip-first search finds |
| `Seqs.ReverseOfReversedSuffix` | Sources/ComposableRouter/Router/RouterCore.swift:95-97 | reversing a suffix of the reversed path gives back a prefix of the path |
| `Screens.Erase` | Sources/ComposableNavigator/Screen/AnyScreen.swift:6-9 | `AnyScreen(s)` boxes `s` itself, and its `presentationStyle` is `s.presentationStyle` |
| `Screens.Unwrap` | Sources/ComposableNavigator/Screen/AnyScreen.swift:11-13 | `unwrap` succeeds iff the boxed screen is of the requested type, and then returns the boxed screen |
| `Screens.Is` | Sources/ComposableNavigator/Screen/AnyScreen.swift:15-17 | `is(T.self)` holds iff the boxed screen is of type T |
| `Screens.IsIffUnwrap` | Sources/ComposableNavigator/Screen/AnyScreen.swift:15-17 | `is` is true iff `unwrap` is non-nil |
| `Screens.UnwrapErase` | Sources/ComposableNavigator/Screen/AnyScreen.swift:6-13 | round trip: `AnyScreen(s).unwrap()` at `s`'s type returns `s`; at any other type it returns nil |
| `Screens.EraseInjective` | Sources/ComposableNavigator/Screen/AnyScreen.swift:2-9 | two screens erase to equal boxes iff they are equal |
| `Screens.EqualIsValueEquality` | Sources/ComposableNavigator/Screen/AnyScreen.swift:2-4 | synthesized `==`: equal iff same type, equal payload and equal presentation styles |
| `Screens.Equal` | Sources/ComposableNavigator/Screen/AnyScreen.swift:2-4 | the synthesized `==`, compared field by field (type, payload, boxed style, copied style), holds iff the two boxes are the same value, and is symmetric |
| `Identity.Identify` | Sources/ComposableRouter/Router/RouterCore.swift:75 | `IdentifiedScreen(id:content:)` carries the given id and content and has not appeared |
| `PathElements.Id` | Sources/ComposableNavigator/Navigator/Path/PathElement/NavigationPathElement.swift:4-9 | `id` is the wrapped screen's id |
| `PathElements.Ids` | Sources/ComposableNavigator/Navigator/Path/PathElement/NavigationPathElement.swift:11-16 | `ids()` is exactly the singleton `{id}` |
| `PathElements.Content` | Sources/ComposableNavigator/Navigator/Path/PathElement/NavigationPathElement.swift:18-23 | `content` is the wrapped screen's content |
| `PathElements.HasAppeared` | Sources/ComposableNavigator/Navigator/Path/PathElement/NavigationPathElement.swift:25-30 | `hasAppeared` is the wrapped screen's flag |
| `PathElements.ProjectionsRebuildElement` | Sources/ComposableNavigator/Navigator/Path/PathElement/NavigationPathElement.swift:1-30 | the element is rebuilt from its three projections, so they lose nothing |
| `PathElements.ElementEquality` | Sources/ComposableNavigator/Navigator/Path/PathElement/NavigationPathElement.swift:1-2 | two elements are equal iff their wrapped identified screens are equal |
| `PathElements.IdsMembership` | Sources/ComposableNavigator/Navigator/Path/PathElement/NavigationPathElement.swift:11-16 | an id is in `ids()` iff it is the element's `id` |
| `Router.Contents` | Sources/ComposableRouter/Router/RouterCore.swift:4 | the contents of a path in order, one per element |
| `Router.IndexOfId` | Sources/ComposableRouter/Router/RouterCore.swift:21 | the first index carrying the id; nil iff the id is absent |
| `Router.LastIndexOfContent` | Sources/ComposableRouter/Router/RouterCore.swift:89-91 | the last index whose content equals the target; nil iff no content equals it |
| `Router.ContentIsAcceptsEqualContent` | Sources/ComposableRouter/Router/RouterCore.swift:90 | the `goBack` search closure `ContentIs(s)` accepts an element exactly when its content equals the target |
| `Router.InitialState` | Sources/ComposableRouter/Router/RouterCore.swift:6-10 | `RouterState(root:)` takes a typed root screen and is one element: id `.root`, the erased root as content, not appeared; the state is valid |
| `Router.ScreenWith` | Sources/ComposableRouter/Router/RouterCore.swift:16-18 | `screen(with:)` is the first element carrying the id; nil iff the id is absent |
| `Router.Tail` | Sources/ComposableRouter/Router/RouterCore.swift:20-26 | `tail(from:)` is the suffix starting at the first element carrying the id (no earlier element carries it); nil iff the id is absent |
| `Router.GoTo` | Sources/ComposableRouter/Router/RouterCore.swift:72-85 | `go` on a non-empty path appends one unappeared element with the supplied id and the screen, and keeps the first n elements; on an empty path it yields `[root: s]` |
| `Router.GoBackTo` | Sources/ComposableRouter/Router/RouterCore.swift:86-99 | `goBack`, as written: the result is the prefix through the *last* element equal to the target (nothing after it equals the target); with no match, the path is unchanged |
| `Router.ReversedCutIsPrefix` | Sources/ComposableRouter/Router/RouterCore.swift:87-97 | the search of the reversed path for the target stops i elements from the tip iff the last element equal to the target is at n-1-i, and reversing what remains gives the prefix through that element |
| `Router.ReplaceWith` | Sources/ComposableRouter/Router/RouterCore.swift:100-107 | `replace` yields \|ps\| unappeared elements with contents `ps` in order, element 0 with id `.root` and element k with the (k-1)-th drawn id |
| `Router.DismissScreen` | Sources/ComposableRouter/Router/RouterCore.swift:108-114 | `dismiss` is a no-op on the first element's id or an absent id; otherwise it is the non-empty prefix strictly before the first index of the id, and that prefix no longer holds the id |
| `Router.DismissSuccessorOf` | Sources/ComposableRouter/Router/RouterCore.swift:115-122 | `dismissSuccessor` is the prefix through the first index of the id; no-op when the id is absent |
| `Router.MarkAppeared` | Sources/ComposableRouter/Router/RouterCore.swift:123-132 | `didAppear` keeps length, order, ids and contents; each flag becomes "was set, or carries the id" |
| `Router.Reduce` | Sources/ComposableRouter/Router/RouterCore.swift:66-134 | `routerReducer` dispatches each action to its case: the resulting path is that case's path function. It draws one id for `go` on a non-empty path and none on an empty one; \|ps\|-1 for a non-empty `replace` and none for `replace([])`; none for every other action. `goBack`, `dismiss` and `dismissSuccessor` yield prefixes, and `didAppear` keeps the length |
| `RouterProperties.GoBackIdempotent` | Sources/ComposableRouter/Router/RouterCore.swift:86-99 | going back twice to the same screen is going back once |
| `RouterProperties.GoThenGoBack` | Sources/ComposableRouter/Router/RouterCore.swift:72-99 | going back to the screen just pushed changes nothing |
| `RouterProperties.GoThenDismiss` | Sources/ComposableRouter/Router/RouterCore.swift:81-85 | dismissing the id just pushed (when it was fresh) restores the path before the push |
| `RouterProperties.DismissIdempotent` | Sources/ComposableRouter/Router/RouterCore.swift:108-114 | dismissing the same id twice is dismissing it once |
| `RouterProperties.DismissKeepsRoot` | Sources/ComposableRouter/Router/RouterCore.swift:109 | `dismiss` never empties a non-empty path and never removes element 0 |
| `RouterProperties.DismissSuccessorIdempotent` | Sources/ComposableRouter/Router/RouterCore.swift:115-122 | `dismissSuccessor` is idempotent |
| `RouterProperties.DismissSuccessorIsDismissOfNext` | Sources/ComposableRouter/Router/RouterCore.swift:108-122 | with unique ids, `dismissSuccessor(of: id)` equals `dismiss` of the element directly after `id` |
| `RouterProperties.DismissSuccessorOfTopIsNoOp` | Sources/ComposableRouter/Router/RouterCore.swift:115-122 | with unique ids, `dismissSuccessor` of the top-most element changes nothing |
| `RouterProperties.MarkAppearedIdempotent` | Sources/ComposableRouter/Router/RouterCore.swift:123-132 | `didAppear` is idempotent |
| `RouterProperties.MarkAppearedAbsentIsNoOp` | Sources/ComposableRouter/Router/RouterCore.swift:123-132 | `didAppear` of an absent id changes nothing |
| `RouterProperties.MarkAppearedKeepsContents` | Sources/ComposableRouter/Router/RouterCore.swift:123-132 | `didAppear` leaves the sequence of contents unchanged |
| `RouterProperties.ScreenWithIsHeadOfTail` | Sources/ComposableRouter/Router/RouterCore.swift:16-26 | `screen(with:)` is nil iff `tail(from:)` is nil, and otherwise is the tail's first element |
| `RouterProperties.ReplaceInstallsScreens` | Sources/ComposableRouter/Router/RouterCore.swift:100-107 | after `replace(path: ps)` the contents of the path are exactly `ps` |
| `RouterProperties.ReplaceWithNothingEmptiesPath` | Sources/ComposableRouter/Router/RouterCore.swift:100-107 | `replace(path: [])` yields the empty path, which is not valid |
| `RouterProperties.PrefixValid` | Sources/ComposableRouter/Router/RouterCore.swift:95-120 | a non-empty prefix of a valid path is valid |
| `RouterProperties.ReplaceValid` | Sources/ComposableRouter/Router/RouterCore.swift:100-107 | a non-empty `replace` with distinct, non-root drawn ids yields a valid path |
| `RouterProperties.GoValid` | Sources/ComposableRouter/Router/RouterCore.swift:81-85 | `go` with an id new to the path keeps the path valid |
| `RouterProperties.MarkAppearedValid` | Sources/ComposableRouter/Router/RouterCore.swift:123-132 | `didAppear` keeps the path valid |
| `RouterProperties.ReducePreservesValid` | Sources/ComposableRouter/Router/RouterCore.swift:66-134 | with a fresh supply, every action other than `replace(path: [])` keeps the path non-empty, rooted and with unique ids |
| `RouterRuns.Run` | Sources/ComposableRouter/Router/RouterCore.swift:66-70 | reducing no actions leaves the state unchanged and draws nothing |
| `RouterRuns.CounterSupplyIsFresh` | Sources/ComposableRouter/Router/RouterCore.swift:58-64 | a counter past every id of the path supplies distinct, non-root ids that are new to the path |
| `RouterRuns.ReduceKeepsIdsBelow` | Sources/ComposableRouter/Router/RouterCore.swift:66-134 | after one reduction, every id in the path was drawn before the advanced counter |
| `RouterRuns.GoKeepsIdsBelow` | Sources/ComposableRouter/Router/RouterCore.swift:81-84 | a push drawing from the counter at `next` leaves every id below `next + 1` |
| `RouterRuns.PrefixKeepsIdsBelow` | Sources/ComposableRouter/Router/RouterCore.swift:95-120 | truncating the path (goBack, dismiss, dismissSuccessor) keeps every id below the same counter |
| `RouterRuns.StepPreservesValid` | Sources/ComposableRouter/Router/RouterCore.swift:66-134 | one counter-supplied step other than `replace(path: [])` keeps the path valid and its ids below the advanced counter |
| `RouterRuns.RunPreservesValid` | Sources/ComposableRouter/Router/RouterCore.swift:66-134 | any action sequence without `replace(path: [])` keeps a valid path valid |
| `RouterRuns.ReachableStatesValid` | Sources/ComposableRouter/Router/RouterCore.swift:6-10 | every state reachable from `RouterState(root:)` without `replace(path: [])` is non-empty, rooted and has unique ids |
| `RouterRuns.StepEmptyOrValid` | Sources/ComposableRouter/Router/RouterCore.swift:66-134 | one counter-supplied step of any action, `replace(path: [])` included, keeps the path empty or valid and its ids below the advanced counter |
| `RouterRuns.RunEmptyOrValid` | Sources/ComposableRouter/Router/RouterCore.swift:66-134 | any action sequence keeps an empty-or-valid path empty or valid |
| `RouterRuns.ReachableStatesRootedAndUnique` | Sources/ComposableRouter/Router/RouterCore.swift:6-134 | every state reachable from `RouterState(root:)`, by any actions, has pairwise distinct ids and `.root` first whenever it is non-empty |
| `RouterRuns.DismissScenario` | Sources/ComposableRouter/Router/RouterCore.swift:108-114 | `[root: Home]`, go Detail, go Capacity, dismiss Detail's id gives `[root: Home]` |
| `PathBuilder.Build` | Sources/ComposableNavigator/PathBuilder/PathBuilders/PathBuilder+Screen.swift:21-32 | every builder returns nil on the empty path; a match's `screen` is `path[0]` and its `successors` are `path[1...]` |
| `PathBuilder.Continue` | Sources/ComposableNavigator/PathBuilder/PathBuilders/PathBuilder+Screen.swift:31 | `next` is nil when there is no `nesting`; a continued match starts at the head of the path it is given |
| `PathBuilder.MatchedScreens` | Sources/ComposableNavigator/PathBuilder/PathBuilders/PathBuilder+Screen.swift:26-31 | descending the path through `successors` and `next` matches a prefix of the path, non-empty iff the first builder matches |
| `PathBuilder.UnwrapScreenMatch` | Sources/ComposableNavigator/PathBuilder/PathBuilders/PathBuilder+Screen.swift:22-31 | the unwrap-based leaf matches iff the path is non-empty and its head unwraps to S; the content is built from the unwrapped payload; `onAppear` and `next` are the leaf's own |
| `PathBuilder.TypeScreenMatch` | Sources/ComposableNavigator/PathBuilder/PathBuilders/PathBuilder+Screen.swift:58-67 | the type-only leaf matches iff the path is non-empty and its head `is(S.self)`; it yields its content, `onAppear` and `next` |
| `PathBuilder.LeafOverloadsAgree` | Sources/ComposableNavigator/PathBuilder/PathBuilders/PathBuilder+Screen.swift:22 | for the same screen type, the two overloads match exactly the same paths |
| `PathBuilder.ContinueBuildsNesting` | Sources/ComposableNavigator/PathBuilder/PathBuilders/PathBuilder+Screen.swift:31 | with `nesting` present, `next` is the nested builder's `build(path:)` |
| `PathBuilder.LeafWithoutNestingMatchesHead` | Sources/ComposableNavigator/PathBuilder/PathBuilders/PathBuilder+Screen.swift:58-67 | a matching leaf without nesting matches its head screen and nothing further |
| `ControlFlow.BuildEitherFirst` | Sources/ComposableNavigator/NavigationTree/NavigationTree+ControlFlow.swift:2-4 | `buildEither(first:)` matches exactly what its component matches, on every path |
| `ControlFlow.BuildEitherSecond` | Sources/ComposableNavigator/NavigationTree/NavigationTree+ControlFlow.swift:6-8 | `buildEither(second:)` matches exactly what its component matches, on every path |
| `ControlFlow.BuildOptional` | Sources/ComposableNavigator/NavigationTree/NavigationTree+ControlFlow.swift:10-12 | `buildOptional(c)` matches exactly what `c` matches; `buildOptional(nil)` matches nothing |
| `ControlFlow.BuildOptionalIsIfLetOfIdentity` | Sources/ComposableNavigator/NavigationTree/NavigationTree+ControlFlow.swift:10-12 | `buildOptional` is the if-let with an identity then closure; an absent component invokes nothing |
| `IfLet.IfLetStore` | Tests/ComposableNavigatorTCATests/PathBuilder+IfLetStoreTests.swift:10-60 | with state present, the then builder runs once with the unwrapped state and the same element, and its result is returned; with state absent, the result is nil and nothing runs |
| `IfLet.IfLetStoreElse` | Tests/ComposableNavigatorTCATests/PathBuilder+IfLetStoreTests.swift:64-139 | exactly one child builder runs, on the element: then (with the unwrapped state) iff the state is present, else otherwise; its result is returned |
| `IfLet.CountCalls` | Tests/ComposableNavigatorTCATests/PathBuilder+IfLetStoreTests.swift:71-72 | the number of then or else invocations in a log is zero iff none of that kind occurs |
| `IfLet.IfLetIsIfLetElseWithNothing` | Tests/ComposableNavigatorTCATests/PathBuilder+IfLetStoreTests.swift:37-60 | if-let without else gives the result of if-let-else with an else that builds nothing |
| `IfLet.IfLetElseRunsOneBranch` | Tests/ComposableNavigatorTCATests/PathBuilder+IfLetStoreTests.swift:99-101 | if-let-else invokes then once and else never when the state is present, and the reverse when it is absent |
| `IfLet.IfLetStoreTestCases` | Tests/ComposableNavigatorTCATests/PathBuilder+IfLetStoreTests.swift:10-139 | the four test cases: non-nil / nil / non-nil / non-nil results, with the recorded invocation logs |
| `Deeplinking.Handle` | Sources/ComposableDeeplinking/DeeplinkHandler.swift:13-17 | with no parse, no navigator action; with a parse `p`, exactly one `replace(path: p)` with `p` verbatim |
| `Deeplinking.HandleOn` | Sources/ComposableDeeplinking/DeeplinkHandler.swift:13-17 | handling a deeplink and reducing the resulting actions: a failed parse leaves the state unchanged; a parse `p` makes the path exactly `replace(path: p)` with counter-drawn ids |
| `Deeplinking.FailedParseKeepsState` | Sources/ComposableDeeplinking/DeeplinkHandler.swift:13-17 | an unparsed deeplink leaves the router state unchanged |
| `Deeplinking.ParsedDeeplinkReplacesPath` | Sources/ComposableDeeplinking/DeeplinkHandler.swift:14-15 | a non-empty parse `p` yields a valid path with contents `p`, element 0 `.root`, all unappeared, and no non-root id of the old path |
| `Deeplinking.DetailDeeplinkScenario` | Sources/ComposableDeeplinking/DeeplinkHandler.swift:13-17 | a deeplink parsed to `[Detail(7)]`, handled on `[root: Home]`, gives `[root: Detail(7)]` |

## Left out

- `NavigationNode.swift`, `UIKitOnAppear.swift`, `ScreenKeys.swift`: SwiftUI views, UIKit bridging and environment defaults. They include the deferred `didAppear` dispatch on the main queue, which is scheduling, not path logic.
- The Composable Architecture machinery (`Reducer`, `Store`, `ViewStore`): the reducer is a pure function. Every case returns `.none`, so effects are not modelled.
- Id generation: the definition of `ScreenID.init()` is not modelled. Ids come from a supply parameter. Where uniqueness is claimed, freshness is a precondition, and runs use a counter.
- `IdentifiedScreen`: its definition is not modelled. The model assumes that `IdentifiedScreen(id:content:)` starts unappeared, that it erases a typed screen once (the root in `RouterState(root:)`) and stores an `AnyScreen` argument unchanged (`go` and `replace`), and that the `didAppear` property the reducer writes is the flag that `hasAppeared` reads.
- Dynamic casts: a cast to S succeeds exactly when the boxed screen's type is S. Casts to protocols or superclasses, and `AnyHashable`'s numeric bridging, are not modelled.
- `PathBuilders.if(let:then:)`, `PathBuilders.ifLetStore`, `PathBuilders.empty`, `anyOf` and `If(screen:else:)`: their definitions are not modelled. The if-let semantics come from the assertions in the tests. `buildOptional` appears as the `OptionalComponent` node of the builder datatype.
- Builders wrapping arbitrary closures: Dafny cannot show termination through closures that return builders. So only the builders the library constructs (the two leaves and `buildOptional`'s if-let) are a datatype.
- `MatchedScreens` descends the whole remaining path. The renderer asks for one successor at a time, and that step-wise protocol is not modelled.
- The concrete `DeeplinkParser`, the `Navigator` protocol and its `replace(path:)`: their definitions are not modelled. The parser is an arbitrary function passed as a parameter, and the model assumes that `replace` is the router's action.
- View content, `PresentationDetent` sets and `onAppear` closures are opaque values. They have no rendering semantics.
- `Run`: its own contract fixes only the empty run; what a run guarantees is stated by `RunPreservesValid` and `ReduceKeepsIdsBelow`.

=== FILE: control_flow.dfy ===
/**
 * The control-flow entry points of the navigation tree's result builder:
 * both `buildEither` cases pass their component through, and
 * `buildOptional` wraps an optional component in an if-let whose then
 * closure is the identity.
 */
module ControlFlow {
  import opened Wrappers
  import opened Router
  import opened PathBuilder
  import IfLet

  /** `buildEither(first:)`. */
  function BuildEitherFirst<P(!new), C>(component: Builder<P, C>): (b: Builder<P, C>)
    ensures forall path :: Build(b, path) == Build(component, path)
  {
    component
  }

  /** `buildEither(second:)`. */
  function BuildEitherSecond<P(!new), C>(component: Builder<P, C>): (b: Builder<P, C>)
    ensures forall path :: Build(b, path) == Build(component, path)
  {
    component
  }

  /** `buildOptional(_:)`: matches what the component matches, or nothing when it is absent. */
  function BuildOptional<P(!new), C>(component: Option<Builder<P, C>>): (b: Builder<P, C>)
    ensures component.Some? ==> forall path :: Build(b, path) == Build(component.value, path)
    ensures component.None? ==> forall path :: Build(b, path).None?
  {
    OptionalComponent(component)
  }

  /** `build(path:)` as a closure, for the if-let combinator. */
  function BuildFn<P, C>(b: Builder<P, C>): Path<P> -> Option<Routed<P, C>>
  {
    path => Build(b, path)
  }

  /**
   * `buildOptional` is `if(let: { component }, then: { $0 })`: its match is
   * the if-let's result with the identity then closure, and the component is
   * asked only when it is present.
   */
  lemma BuildOptionalIsIfLetOfIdentity<P(!new), C>(component: Option<Builder<P, C>>, path: Path<P>)
    ensures Build(BuildOptional(component), path) == IfLet.IfLetStore(component, BuildFn, path).result
    ensures component.None? ==> IfLet.IfLetStore(component, BuildFn, path).calls == []
  {
  }
}

=== FILE: deeplinking.dfy ===
/**
 * `DeeplinkHandler`: parse a deeplink into a path of screens and, when the
 * parse succeeds, ask the navigator to replace the current path with it.
 *
 * The parser is a parameter (any function from deeplinks to optional screen
 * sequences); the navigator's `replace(path:)` is the router's `replace`
 * action.
 */
module Deeplinking {
  import opened Wrappers
  import opened Screens
  import opened Identity
  import opened Router
  import opened RouterProperties
  import opened RouterRuns

  /** A deeplink, kept opaque: the handler never looks inside it. */
  datatype Deeplink = Deeplink(url: string)

  /** `DeeplinkParser.parse`. */
  type Parser<P> = Deeplink -> Option<seq<AnyScreen<P>>>

  /** `handle(deeplink:)`: the navigator actions the handler issues. */
  function Handle<P>(parser: Parser<P>, deeplink: Deeplink): (actions: seq<RouterAction<P>>)
    ensures parser(deeplink).None? ==> actions == []
    ensures parser(deeplink).Some? ==> |actions| == 1 && actions[0].Replace?
    ensures parser(deeplink).Some? ==> actions[0].screens == parser(deeplink).value
  {
    match parser(deeplink)
    case None => []
    case Some(screens) => [Replace(screens)]
  }

  /** The router state after the handler's actions are reduced, with the counter at `next`. */
  function HandleOn<P(==)>(state: RouterState<P>, parser: Parser<P>, deeplink: Deeplink, next: nat): (r: RouterState<P>)
    ensures parser(deeplink).None? ==> r == state
    ensures parser(deeplink).Some? ==> r.path == ReplaceWith(parser(deeplink).value, CounterSupply(next))
  {
    var actions := Handle(parser, deeplink);
    assert |actions| == 1 ==> actions[1..] == [];
    Run(state, actions, next).state
  }

  /** A deeplink that does not parse leaves the path as it was. */
  lemma FailedParseKeepsState<P>(state: RouterState<P>, parser: Parser<P>, deeplink: Deeplink, next: nat)
    requires parser(deeplink).None?
    ensures HandleOn(state, parser, deeplink, next) == state
  {
  }

  /**
   * A deeplink that parses to a non-empty `screens` replaces the whole path:
   * the new path shows exactly `screens`, starts at the root, has not
   * appeared, is valid, and keeps no element of the old path other than a
   * root element it happens to rebuild identically.
   */
  lemma {:induction false} ParsedDeeplinkReplacesPath<P>(state: RouterState<P>, parser: Parser<P>, deeplink: Deeplink, next: nat)
    requires parser(deeplink).Some? && |parser(deeplink).value| > 0
    requires IdsBelow(state.path, next)
    ensures var path := HandleOn(state, parser, deeplink, next).path;
            && Contents(path) == parser(deeplink).value
            && path[0].id == Root
            && (forall k :: 0 <= k < |path| ==> !path[k].hasAppeared)
            && Valid(path)
            && (forall k :: 0 < k < |path| ==> !HasId(state.path, path[k].id))
  {
    var screens := parser(deeplink).value;
    var ids := CounterSupply(next);
    var actions := Handle(parser, deeplink);
    assert actions == [Replace(screens)];
    var path := ReplaceWith(screens, ids);
    assert Run(state, actions, next).state.path == path by {
      assert actions[1..] == [];
    }
    ReplaceInstallsScreens(screens, ids);
    ReplaceValid(screens, ids);
    CounterSupplyIsFresh(state.path, next);
    forall k | 0 < k < |path|
      ensures !HasId(state.path, path[k].id)
    {
      assert path[k].id == ids(k - 1);
    }
  }

  /**
   * For a parser that maps `example://detail?id=7` to `[Detail(id: 7)]`,
   * handling that deeplink on `[root: Home]` leaves `[root: Detail(id: 7)]`.
   */
  lemma DetailDeeplinkScenario(parser: Parser<int>)
    requires parser(Deeplink("example://detail?id=7")) == Some([Erase(Screen("Detail", 7, Push))])
    ensures HandleOn(InitialState(Screen("Home", 0, Push)), parser, Deeplink("example://detail?id=7"), 0).path
            == [Identify(Root, Erase(Screen("Detail", 7, Push)))]
  {
    var actions := Handle(parser, Deeplink("example://detail?id=7"));
    assert actions[1..] == [];
  }
}

=== FILE: identity.dfy ===
/**
 * Identified screens: a boxed screen together with the identifier of its
 * occurrence in the navigation path and its "has appeared" flag.
 */
module Identity {
  import opened Screens

  /**
   * `ScreenID`: the reserved identifier of the first path element, or one of
   * the unbounded supply of identifiers a screen occurrence can be given.
   */
  datatype ScreenID = Root | Fresh(n: nat)

  /** `IdentifiedScreen`: one element of the navigation path. */
  datatype IdentifiedScreen<P> = IdentifiedScreen(id: ScreenID, content: AnyScreen<P>, hasAppeared: bool)

  /** `IdentifiedScreen(id:content:)`: a new occurrence that has not appeared yet. */
  function Identify<P>(id: ScreenID, content: AnyScreen<P>): (e: IdentifiedScreen<P>)
    ensures e.id == id && e.content == content
    ensures !e.hasAppeared
  {
    IdentifiedScreen(id, content, false)
  }
}

=== FILE: if_let.dfy ===
/**
 * The if-let builder over optional state (`PathBuilders.ifLetStore` in the
 * Composable Architecture integration), with and without an else builder.
 *
 * Builders here are closures from a path element to optional content, as the
 * tests write them. Besides the result, an outcome records which child
 * builders were invoked and with what, which is what the tests observe.
 */
module IfLet {
  import opened Wrappers

  /** One invocation of a child builder: the then builder with the unwrapped state, or the else builder. */
  datatype Call<T, E> = ThenCall(state: T, element: E) | ElseCall(element: E)

  /** What a build returned, and the child builder invocations it made, in order. */
  datatype Outcome<T, E, R> = Outcome(result: Option<R>, calls: seq<Call<T, E>>)

  /** `ifLetStore(store:then:)` built on one element. */
  function IfLetStore<T, E, R>(state: Option<T>, thenBuilder: T -> (E -> Option<R>), element: E): (o: Outcome<T, E, R>)
    ensures state.Some? ==> o.result == thenBuilder(state.value)(element)
    ensures state.Some? ==> o.calls == [ThenCall(state.value, element)]
    ensures state.None? ==> o.result.None? && o.calls == []
  {
    match state
    case Some(value) => Outcome(thenBuilder(value)(element), [ThenCall(value, element)])
    case None => Outcome(None, [])
  }

  /** `ifLetStore(store:then:else:)` built on one element. */
  function IfLetStoreElse<T, E, R>(state: Option<T>, thenBuilder: T -> (E -> Option<R>),
                                   elseBuilder: E -> Option<R>, element: E): (o: Outcome<T, E, R>)
    ensures state.Some? ==> o.result == thenBuilder(state.value)(element)
    ensures state.None? ==> o.result == elseBuilder(element)
    ensures |o.calls| == 1 && o.calls[0].element == element
    ensures o.calls[0].ThenCall? <==> state.Some?
    ensures o.calls[0].ThenCall? ==> o.calls[0].state == state.value
  {
    match state
    case Some(value) => Outcome(thenBuilder(value)(element), [ThenCall(value, element)])
    case None => Outcome(elseBuilder(element), [ElseCall(element)])
  }

  /** How many invocations of the then builder (`ofThen`) or of the else builder (`!ofThen`) a log holds. */
  function CountCalls<T, E>(calls: seq<Call<T, E>>, ofThen: bool): (n: nat)
    ensures n <= |calls|
    ensures n == 0 <==> forall i :: 0 <= i < |calls| ==> calls[i].ThenCall? != ofThen
    decreases |calls|
  {
    if |calls| == 0 then 0
    else (if calls[0].ThenCall? == ofThen then 1 else 0) + CountCalls(calls[1..], ofThen)
  }

  /** Without an else builder, the result is the one an else builder that builds nothing would give. */
  lemma IfLetIsIfLetElseWithNothing<T, E, R>(state: Option<T>, thenBuilder: T -> (E -> Option<R>), element: E)
    ensures IfLetStore(state, thenBuilder, element).result
            == IfLetStoreElse(state, thenBuilder, (e: E) => None, element).result
  {
  }

  /** With an else builder, exactly one child builder runs, once, on the element: then when the state is present, else otherwise. */
  lemma {:induction false} IfLetElseRunsOneBranch<T, E, R>(state: Option<T>, thenBuilder: T -> (E -> Option<R>),
                                                           elseBuilder: E -> Option<R>, element: E)
    ensures CountCalls(IfLetStoreElse(state, thenBuilder, elseBuilder, element).calls, true)
            == (if state.Some? then 1 else 0)
    ensures CountCalls(IfLetStoreElse(state, thenBuilder, elseBuilder, element).calls, false)
            == (if state.Some? then 0 else 1)
  {
    var calls := IfLetStoreElse(state, thenBuilder, elseBuilder, element).calls;
    assert calls[1..] == [];
  }

  /**
   * The four cases the tests check, with an `Int?` state and child builders
   * that always build content.
   */
  lemma IfLetStoreTestCases<E>(element: E)
    ensures var o := IfLetStore(Some(0), (s: int) => (e: E) => Some(()), element);
            o.result.Some? && o.calls == [ThenCall(0, element)]
    ensures var o := IfLetStore(None, (s: int) => (e: E) => Some(()), element);
            o.result.None? && o.calls == []
    ensures var o := IfLetStoreElse(Some(0), (s: int) => (e: E) => Some(()), (e: E) => Some(()), element);
            o.result.Some? && o.calls == [ThenCall(0, element)]
    ensures var o := IfLetStoreElse(None, (s: int) => (e: E) => Some(()), (e: E) => Some(()), element);
            o.result.Some? && o.calls == [ElseCall(element)]
  {
  }
}

=== FILE: path_builder.dfy ===
/**
 * Path builders: matchers from a navigation path to the content of its first
 * screen plus a continuation for the rest of the path.
 *
 * A Swift `PathBuilder` wraps a closure `buildPath`. Closures whose result
 * can hold further builders cannot be shown to terminate in Dafny, so the
 * builders the library constructs are a datatype here, and `Build` is the
 * `buildPath` each of them wraps.
 */
module PathBuilder {
  import opened Wrappers
  import opened Screens
  import opened Identity
  import opened Router

  /** The `onAppear: (Bool) -> Void` closure, passed through untouched. */
  datatype Callback = Callback(token: nat)

  /** The builders of the navigation tree; `C` is the content (view) type. */
  datatype Builder<!P, C> =
      /** `PathBuilder.screen(onAppear:content:nesting:)`: matches by unwrapping the head to the type tagged `tag`. */
    | UnwrapScreen(tag: TypeTag, content: Screen<P> -> C, onAppear: Callback, nesting: Option<Builder<P, C>>)
      /** `PathBuilder.screen(_:onAppear:content:nesting:)`: matches when the head is of the type tagged `tag`. */
    | TypeScreen(tag: TypeTag, view: C, onAppear: Callback, nesting: Option<Builder<P, C>>)
      /** `PathBuilders.if(let: { component }, then: { $0 })`: delegates to the component when there is one. */
    | OptionalComponent(component: Option<Builder<P, C>>)

  /** `Routed`: the matched head, the unmatched rest, the content and the continuation. */
  datatype Routed<!P, C> = Routed(
    screen: IdentifiedScreen<P>,
    successors: Path<P>,
    content: C,
    onAppear: Callback,
    next: Option<Builder<P, C>>)

  /**
   * `build(path:)`. Every builder, however composed, matches only a non-empty
   * path, and a match consumes exactly its head.
   */
  function Build<P, C>(b: Builder<P, C>, path: Path<P>): (r: Option<Routed<P, C>>)
    ensures |path| == 0 ==> r.None?
    ensures r.Some? ==> |path| > 0 && r.value.screen == path[0] && r.value.successors == path[1..]
  {
    match b
    case UnwrapScreen(tag, content, onAppear, nesting) =>
      if |path| == 0 then None
      else
        (match Unwrap(path[0].content, tag)
         case None => None
         case Some(unwrapped) => Some(Routed(path[0], path[1..], content(unwrapped), onAppear, nesting)))
    case TypeScreen(tag, view, onAppear, nesting) =>
      if |path| == 0 || !Is(path[0].content, tag) then None
      else Some(Routed(path[0], path[1..], view, onAppear, nesting))
    case OptionalComponent(component) =>
      match component
      case None => None
      case Some(c) => Build(c, path)
  }

  /** Calling `next` of a match on a path: nil when the screen was built without `nesting`. */
  function Continue<P, C>(routed: Routed<P, C>, path: Path<P>): (r: Option<Routed<P, C>>)
    ensures routed.next.None? ==> r.None?
    ensures r.Some? ==> |path| > 0 && r.value.screen == path[0]
  {
    match routed.next
    case None => None
    case Some(nested) => Build(nested, path)
  }

  /**
   * The screens matched by descending the whole path: the head is matched by
   * `b`, the rest by the continuation of each match, until a builder fails
   * or a screen has no nesting. They are always a prefix of the path.
   */
  function MatchedScreens<P, C>(b: Builder<P, C>, path: Path<P>): (r: Path<P>)
    ensures r <= path
    ensures |r| > 0 <==> Build(b, path).Some?
    decreases |path|
  {
    match Build(b, path)
    case None => []
    case Some(routed) =>
      match routed.next
      case None => [routed.screen]
      case Some(nested) => [routed.screen] + MatchedScreens(nested, routed.successors)
  }

  /** The unwrap-based leaf matches exactly the paths whose head unwraps to its type, and builds from the unwrapped value. */
  lemma UnwrapScreenMatch<P, C>(tag: TypeTag, content: Screen<P> -> C, onAppear: Callback,
                                nesting: Option<Builder<P, C>>, path: Path<P>)
    ensures (Build(UnwrapScreen(tag, content, onAppear, nesting), path).Some?
             <==> |path| > 0 && Unwrap(path[0].content, tag).Some?)
    ensures Build(UnwrapScreen(tag, content, onAppear, nesting), path).Some? ==>
              var r := Build(UnwrapScreen(tag, content, onAppear, nesting), path).value;
              && r.content == content(Unwrap(path[0].content, tag).value)
              && r.onAppear == onAppear
              && r.next == nesting
  {
  }

  /** The type-only leaf matches exactly the paths whose head `is` of its type. */
  lemma TypeScreenMatch<P, C>(tag: TypeTag, view: C, onAppear: Callback,
                              nesting: Option<Builder<P, C>>, path: Path<P>)
    ensures (Build(TypeScreen(tag, view, onAppear, nesting), path).Some?
             <==> |path| > 0 && Is(path[0].content, tag))
    ensures Build(TypeScreen(tag, view, onAppear, nesting), path).Some? ==>
              var r := Build(TypeScreen(tag, view, onAppear, nesting), path).value;
              r.content == view && r.onAppear == onAppear && r.next == nesting
  {
  }

  /** The two leaf overloads for the same screen type match exactly the same paths, with the same head and rest. */
  lemma LeafOverloadsAgree<P, C>(tag: TypeTag, content: Screen<P> -> C, view: C,
                                 onAppear1: Callback, onAppear2: Callback,
                                 nesting1: Option<Builder<P, C>>, nesting2: Option<Builder<P, C>>, path: Path<P>)
    ensures (Build(UnwrapScreen(tag, content, onAppear1, nesting1), path).Some?
             <==> Build(TypeScreen(tag, view, onAppear2, nesting2), path).Some?)
  {
    if |path| > 0 {
      IsIffUnwrap(path[0].content, tag);
    }
  }

  /** The continuation of a match is the nested builder run on the path it is given. */
  lemma ContinueBuildsNesting<P, C>(routed: Routed<P, C>, path: Path<P>)
    requires routed.next.Some?
    ensures Continue(routed, path) == Build(routed.next.value, path)
  {
  }

  /** A leaf without nesting that matches the head matches that screen alone. */
  lemma LeafWithoutNestingMatchesHead<P, C>(tag: TypeTag, view: C, onAppear: Callback, path: Path<P>)
    requires |path| > 0 && Is(path[0].content, tag)
    ensures MatchedScreens(TypeScreen(tag, view, onAppear, None), path) == [path[0]]
  {
  }
}

=== FILE: path_elements.dfy ===
/**
 * `NavigationPathElement`: the single-case enumeration through which the
 * rendering layer sees one identified screen of the path.
 */
module PathElements {
  import opened Screens
  import opened Identity

  datatype NavigationPathElement<P> = ScreenElement(screen: IdentifiedScreen<P>)

  /** `id`: the identifier of the wrapped screen. */
  function Id<P>(e: NavigationPathElement<P>): (id: ScreenID)
    ensures id == e.screen.id
  {
    match e
    case ScreenElement(s) => s.id
  }

  /** `ids()`: every identifier the element covers, which is just its own. */
  function Ids<P>(e: NavigationPathElement<P>): (ids: set<ScreenID>)
    ensures ids == {Id(e)}
    ensures |ids| == 1
  {
    match e
    case ScreenElement(s) => {s.id}
  }

  /** `content`: the boxed screen of the wrapped element. */
  function Content<P>(e: NavigationPathElement<P>): (c: AnyScreen<P>)
    ensures c == e.screen.content
  {
    match e
    case ScreenElement(s) => s.content
  }

  /** `hasAppeared`: the flag of the wrapped element. */
  function HasAppeared<P>(e: NavigationPathElement<P>): (b: bool)
    ensures b == e.screen.hasAppeared
  {
    match e
    case ScreenElement(s) => s.hasAppeared
  }

  /** The projections lose nothing: the element is rebuilt from them. */
  lemma ProjectionsRebuildElement<P>(e: NavigationPathElement<P>)
    ensures e == ScreenElement(IdentifiedScreen(Id(e), Content(e), HasAppeared(e)))
  {
  }

  /** The synthesized `==`: two elements are equal exactly when the wrapped screens are. */
  lemma ElementEquality<P>(a: NavigationPathElement<P>, b: NavigationPathElement<P>)
    ensures a == b <==> a.screen == b.screen
  {
  }

  /** An element's identifier is in its identifier set and no other identifier is. */
  lemma IdsMembership<P>(e: NavigationPathElement<P>, id: ScreenID)
    ensures id in Ids(e) <==> id == Id(e)
  {
  }
}

=== FILE: router.dfy ===
/**
 * The router: `RouterState`, `RouterAction` and `routerReducer`.
 *
 * The reducer is a pure function of the state, the action and the identifier
 * supply of `RouterEnvironment`. Each case of the reducer is a path function
 * below; `Reduce` dispatches to them and reports how many identifiers it drew.
 */
module Router {
  import opened Wrappers
  import opened Seqs
  import opened Screens
  import opened Identity

  /** The navigation path: index 0 is the root screen, the last element the top-most one. */
  type Path<P> = seq<IdentifiedScreen<P>>

  datatype RouterState<P> = RouterState(path: Path<P>)

  datatype RouterAction<P> =
    | Go(to: AnyScreen<P>)
    | GoBack(target: AnyScreen<P>)
    | Replace(screens: seq<AnyScreen<P>>)
    | Dismiss(id: ScreenID)
    | DismissSuccessor(anchor: ScreenID)
    | DidAppear(id: ScreenID)

  /**
   * `RouterEnvironment.screenID`: `ids(k)` is the identifier returned by the
   * k-th call made while reducing one action.
   */
  type IdSupply = nat -> ScreenID

  /** The new state and the number of identifiers the reduction drew from the supply. */
  datatype Reduction<P> = Reduction(state: RouterState<P>, drawn: nat)

  // ---------------------------------------------------------------------------
  // Path vocabulary

  predicate HasId<P>(path: Path<P>, id: ScreenID)
  {
    exists i :: 0 <= i < |path| && path[i].id == id
  }

  predicate HasContent<P(==)>(path: Path<P>, s: AnyScreen<P>)
  {
    exists i :: 0 <= i < |path| && path[i].content == s
  }

  predicate UniqueIds<P>(path: Path<P>)
  {
    forall i, j :: 0 <= i < j < |path| ==> path[i].id != path[j].id
  }

  /** The path invariant the library relies on: non-empty, rooted, identifiers pairwise distinct. */
  predicate Valid<P>(path: Path<P>)
  {
    |path| > 0 && path[0].id == Root && UniqueIds(path)
  }

  /** The boxed screens of a path, in order. */
  function Contents<P>(path: Path<P>): (c: seq<AnyScreen<P>>)
    ensures |c| == |path|
    ensures forall k :: 0 <= k < |path| ==> c[k] == path[k].content
  {
    seq(|path|, k requires 0 <= k < |path| => path[k].content)
  }

  /** `path.firstIndex(where: { $0.id == id })`. */
  function IndexOfId<P>(path: Path<P>, id: ScreenID): (r: Option<nat>)
    ensures r.Some? ==> r.value < |path| && path[r.value].id == id
    ensures r.Some? ==> forall j :: 0 <= j < r.value ==> path[j].id != id
    ensures r.None? <==> !HasId(path, id)
  {
    FirstIndex(path, (e: IdentifiedScreen<P>) => e.id == id)
  }

  /** The greatest index whose content equals `s`: the reference meaning of `goBack`. */
  function LastIndexOfContent<P(==)>(path: Path<P>, s: AnyScreen<P>): (r: Option<nat>)
    ensures r.Some? ==> r.value < |path| && path[r.value].content == s
    ensures r.Some? ==> forall j :: r.value < j < |path| ==> path[j].content != s
    ensures r.None? <==> !HasContent(path, s)
  {
    LastIndex(path, ContentIs(s))
  }

  /** The element test `goBack(to: s)` searches with: the element's content equals `s`. */
  function ContentIs<P(==)>(s: AnyScreen<P>): IdentifiedScreen<P> -> bool
  {
    (e: IdentifiedScreen<P>) => e.content == s
  }

  /** The `goBack` test accepts an element exactly when its content equals the target. */
  lemma ContentIsAcceptsEqualContent<P>(s: AnyScreen<P>, e: IdentifiedScreen<P>)
    ensures ContentIs(s)(e) <==> e.content == s
  {
  }

  // ---------------------------------------------------------------------------
  // RouterState

  /** `RouterState(root:)`. */
  function InitialState<P>(root: Screen<P>): (r: RouterState<P>)
    ensures |r.path| == 1
    ensures r.path[0].id == Root && r.path[0].content == Erase(root) && !r.path[0].hasAppeared
    ensures Valid(r.path)
  {
    RouterState([Identify(Root, Erase(root))])
  }

  /** `screen(with:)`: the first element carrying `id`. */
  function ScreenWith<P>(state: RouterState<P>, id: ScreenID): (r: Option<IdentifiedScreen<P>>)
    ensures r.None? <==> !HasId(state.path, id)
    ensures r.Some? ==> r.value.id == id
    ensures r.Some? ==> exists i :: 0 <= i < |state.path| && state.path[i] == r.value
                                    && forall j :: 0 <= j < i ==> state.path[j].id != id
  {
    match IndexOfId(state.path, id)
    case None => None
    case Some(i) => Some(state.path[i])
  }

  /** `tail(from:)`: the suffix starting at the first element carrying `id`. */
  function Tail<P>(state: RouterState<P>, id: ScreenID): (r: Option<Path<P>>)
    ensures r.None? <==> !HasId(state.path, id)
    ensures r.Some? ==> 0 < |r.value| <= |state.path|
    ensures r.Some? ==> state.path[|state.path| - |r.value|..] == r.value && r.value[0].id == id
    ensures r.Some? ==> !HasId(state.path[..|state.path| - |r.value|], id)
  {
    match IndexOfId(state.path, id)
    case None => None
    case Some(i) => Some(state.path[i..])
  }

  // ---------------------------------------------------------------------------
  // The six cases of the reducer, as path functions

  /** `go(to:)`: append a fresh element; on an empty path, start a new rooted one. */
  function GoTo<P>(path: Path<P>, s: AnyScreen<P>, ids: IdSupply): (r: Path<P>)
    ensures |path| == 0 ==> r == [Identify(Root, s)]
    ensures |path| > 0 ==> |r| == |path| + 1 && path < r
    ensures |path| > 0 ==> r[|path|].id == ids(0) && r[|path|].content == s && !r[|path|].hasAppeared
  {
    if |path| == 0 then [Identify(Root, s)]
    else path + [Identify(ids(0), s)]
  }

  /**
   * `goBack(to:)` as written: reverse the path, find the first element equal
   * to `s` from the tip, keep it and everything before it.
   */
  function GoBackTo<P(==)>(path: Path<P>, s: AnyScreen<P>): (r: Path<P>)
    ensures r <= path
    ensures !HasContent(path, s) ==> r == path
    ensures HasContent(path, s) ==> |r| > 0 && r[|r| - 1].content == s
    ensures forall j :: |r| <= j < |path| ==> path[j].content != s
    ensures LastIndexOfContent(path, s).Some? ==> r == path[..LastIndexOfContent(path, s).value + 1]
  {
    var matches := ContentIs(s);
    var reversed := Reverse(path);
    match FirstIndex(reversed, matches)
    case None =>
      ReversedSearchMisses(path, matches);
      assert LastIndexOfContent(path, s).None?;
      path
    case Some(i) =>
      ReversedCutIsPrefix(path, s, i);
      Reverse(reversed[i..])
  }

  /**
   * The tip-first search of `goBack(to: s)` stops `i` elements from the tip
   * exactly when the last element equal to `s` is at `|path| - 1 - i`, and
   * reversing the rest of the reversed path is the prefix through it.
   */
  lemma ReversedCutIsPrefix<P>(path: Path<P>, s: AnyScreen<P>, i: nat)
    requires FirstIndex(Reverse(path), ContentIs(s)) == Some(i)
    ensures i < |path| && LastIndexOfContent(path, s) == Some(|path| - 1 - i)
    ensures Reverse(Reverse(path)[i..]) == path[..|path| - i]
    ensures HasContent(path, s) && path[|path| - 1 - i].content == s
  {
    ReversedSearchFinds(path, ContentIs(s), i);
  }

  /** `replace(path:)`: a new path whose first element is the root and whose others draw fresh identifiers. */
  function ReplaceWith<P>(screens: seq<AnyScreen<P>>, ids: IdSupply): (r: Path<P>)
    ensures |r| == |screens|
    ensures forall k :: 0 <= k < |r| ==> r[k].content == screens[k] && !r[k].hasAppeared
    ensures |r| > 0 ==> r[0].id == Root
    ensures forall k :: 0 < k < |r| ==> r[k].id == ids(k - 1)
  {
    seq(|screens|, k requires 0 <= k < |screens| =>
      Identify(if k == 0 then Root else ids(k - 1), screens[k]))
  }

  /** `dismiss(_:)`: drop the first element carrying `id` and all after it; the root is never dismissed. */
  function DismissScreen<P>(path: Path<P>, id: ScreenID): (r: Path<P>)
    ensures r <= path
    ensures (|path| > 0 && path[0].id == id) || !HasId(path, id) ==> r == path
    ensures |path| > 0 && path[0].id != id && HasId(path, id) ==>
              0 < |r| < |path| && path[|r|].id == id && !HasId(r, id)
  {
    if |path| > 0 && path[0].id == id then path
    else
      match IndexOfId(path, id)
      case None => path
      case Some(i) => path[..i]
  }

  /** `dismissSuccessor(of:)`: keep the path up to and including the first element carrying `id`. */
  function DismissSuccessorOf<P>(path: Path<P>, id: ScreenID): (r: Path<P>)
    ensures r <= path
    ensures !HasId(path, id) ==> r == path
    ensures HasId(path, id) ==> |r| > 0 && r[|r| - 1].id == id && !HasId(r[..|r| - 1], id)
  {
    match IndexOfId(path, id)
    case None => path
    case Some(i) => path[..i + 1]
  }

  /** `didAppear(_:)`: raise the flag of every element carrying `id`. */
  function MarkAppeared<P>(path: Path<P>, id: ScreenID): (r: Path<P>)
    ensures |r| == |path|
    ensures forall k :: 0 <= k < |path| ==> r[k].id == path[k].id && r[k].content == path[k].content
    ensures forall k :: 0 <= k < |path| ==> r[k].hasAppeared == (path[k].hasAppeared || path[k].id == id)
  {
    seq(|path|, k requires 0 <= k < |path| =>
      if path[k].id == id then path[k].(hasAppeared := true) else path[k])
  }

  /** `routerReducer`. */
  function Reduce<P(==)>(state: RouterState<P>, action: RouterAction<P>, ids: IdSupply): (r: Reduction<P>)
    ensures action.Go? ==> r.drawn == (if |state.path| == 0 then 0 else 1)
    ensures action.Replace? ==> r.drawn == (if |action.screens| == 0 then 0 else |action.screens| - 1)
    ensures !action.Go? && !action.Replace? ==> r.drawn == 0
    ensures action.Go? ==> r.state.path == GoTo(state.path, action.to, ids)
    ensures action.GoBack? ==> r.state.path == GoBackTo(state.path, action.target)
    ensures action.Replace? ==> r.state.path == ReplaceWith(action.screens, ids)
    ensures action.Dismiss? ==> r.state.path == DismissScreen(state.path, action.id)
    ensures action.DismissSuccessor? ==> r.state.path == DismissSuccessorOf(state.path, action.anchor)
    ensures action.DidAppear? ==> r.state.path == MarkAppeared(state.path, action.id)
    ensures action.GoBack? || action.Dismiss? || action.DismissSuccessor? ==> r.state.path <= state.path
    ensures action.DidAppear? ==> |r.state.path| == |state.path|
  {
    match action
    case Go(s) =>
      Reduction(RouterState(GoTo(state.path, s, ids)), if |state.path| == 0 then 0 else 1)
    case GoBack(s) =>
      Reduction(RouterState(GoBackTo(state.path, s)), 0)
    case Replace(screens) =>
      Reduction(RouterState(ReplaceWith(screens, ids)), if |screens| == 0 then 0 else |screens| - 1)
    case Dismiss(id) =>
      Reduction(RouterState(DismissScreen(state.path, id)), 0)
    case DismissSuccessor(id) =>
      Reduction(RouterState(DismissSuccessorOf(state.path, id)), 0)
    case DidAppear(id) =>
      Reduction(RouterState(MarkAppeared(state.path, id)), 0)
  }
}

=== FILE: router_properties.dfy ===
/**
 * Properties of the router: how its cases relate to one another, and the
 * path invariant (non-empty, rooted, unique identifiers) that every action
 * except `replace(path: [])` preserves.
 */
module RouterProperties {
  import opened Wrappers
  import opened Screens
  import opened Identity
  import opened Router

  // ---------------------------------------------------------------------------
  // goBack

  /** Going back twice to the same screen is going back once. */
  lemma GoBackIdempotent<P>(path: Path<P>, s: AnyScreen<P>)
    ensures GoBackTo(GoBackTo(path, s), s) == GoBackTo(path, s)
  {
    var r := GoBackTo(path, s);
    if HasContent(path, s) {
      assert r[|r| - 1].content == s;
      var r2 := GoBackTo(r, s);
      assert |r2| == |r|;
    }
  }

  /** Going back to the screen just pushed leaves the path as the push made it. */
  lemma GoThenGoBack<P>(path: Path<P>, s: AnyScreen<P>, ids: IdSupply)
    ensures GoBackTo(GoTo(path, s, ids), s) == GoTo(path, s, ids)
  {
    var pushed := GoTo(path, s, ids);
    assert pushed[|pushed| - 1].content == s;
  }

  // ---------------------------------------------------------------------------
  // go / dismiss

  /** Dismissing the screen just pushed undoes the push. */
  lemma GoThenDismiss<P>(path: Path<P>, s: AnyScreen<P>, ids: IdSupply)
    requires |path| > 0 && !HasId(path, ids(0))
    ensures DismissScreen(GoTo(path, s, ids), ids(0)) == path
  {
    var pushed := GoTo(path, s, ids);
    assert pushed[0] == path[0];
    assert pushed[|path|].id == ids(0);
    forall k | 0 <= k < |path|
      ensures pushed[k].id != ids(0)
    {
      assert pushed[k] == path[k];
    }
  }

  /** Dismissing the same identifier twice is dismissing it once. */
  lemma DismissIdempotent<P>(path: Path<P>, id: ScreenID)
    ensures DismissScreen(DismissScreen(path, id), id) == DismissScreen(path, id)
  {
  }

  /** `dismiss` never empties a non-empty path and never removes the root element. */
  lemma DismissKeepsRoot<P>(path: Path<P>, id: ScreenID)
    requires |path| > 0
    ensures |DismissScreen(path, id)| > 0
    ensures DismissScreen(path, id)[0] == path[0]
  {
  }

  // ---------------------------------------------------------------------------
  // dismissSuccessor

  /** Dismissing the successors of the same identifier twice is doing it once. */
  lemma DismissSuccessorIdempotent<P>(path: Path<P>, id: ScreenID)
    ensures DismissSuccessorOf(DismissSuccessorOf(path, id), id) == DismissSuccessorOf(path, id)
  {
    var r := DismissSuccessorOf(path, id);
    if HasId(path, id) {
      assert r[|r| - 1].id == id;
      forall k | 0 <= k < |r| - 1
        ensures r[k].id != id
      {
        assert r[..|r| - 1][k] == r[k];
      }
    }
  }

  /**
   * On a path with unique identifiers, dismissing the successors of `id` is
   * dismissing the element that directly follows `id`.
   */
  lemma DismissSuccessorIsDismissOfNext<P>(path: Path<P>, id: ScreenID, i: nat)
    requires UniqueIds(path)
    requires IndexOfId(path, id) == Some(i) && i + 1 < |path|
    ensures DismissSuccessorOf(path, id) == DismissScreen(path, path[i + 1].id)
  {
    var next := path[i + 1].id;
    assert path[0].id != next;
    assert HasId(path, next);
    var d := DismissScreen(path, next);
    assert |d| == i + 1 by {
      assert path[|d|].id == next;
    }
  }

  /** Dismissing the successors of the top-most element changes nothing. */
  lemma DismissSuccessorOfTopIsNoOp<P>(path: Path<P>)
    requires UniqueIds(path) && |path| > 0
    ensures DismissSuccessorOf(path, path[|path| - 1].id) == path
  {
    var top := path[|path| - 1].id;
    assert HasId(path, top);
    var r := DismissSuccessorOf(path, top);
    assert r[|r| - 1] == path[|r| - 1];
  }

  // ---------------------------------------------------------------------------
  // didAppear

  /** Marking the same identifier twice is marking it once. */
  lemma MarkAppearedIdempotent<P>(path: Path<P>, id: ScreenID)
    ensures MarkAppeared(MarkAppeared(path, id), id) == MarkAppeared(path, id)
  {
  }

  /** `didAppear` of an identifier not in the path changes nothing. */
  lemma MarkAppearedAbsentIsNoOp<P>(path: Path<P>, id: ScreenID)
    requires !HasId(path, id)
    ensures MarkAppeared(path, id) == path
  {
    var r := MarkAppeared(path, id);
    forall k | 0 <= k < |path|
      ensures r[k] == path[k]
    {
      assert path[k].id != id;
    }
  }

  /** `didAppear` keeps the identifiers and contents of the path in order. */
  lemma MarkAppearedKeepsContents<P>(path: Path<P>, id: ScreenID)
    ensures Contents(MarkAppeared(path, id)) == Contents(path)
  {
  }

  // ---------------------------------------------------------------------------
  // screen(with:) / tail(from:)

  /** `screen(with:)` is the head of `tail(from:)`. */
  lemma ScreenWithIsHeadOfTail<P>(state: RouterState<P>, id: ScreenID)
    ensures ScreenWith(state, id).None? <==> Tail(state, id).None?
    ensures Tail(state, id).Some? ==> ScreenWith(state, id) == Some(Tail(state, id).value[0])
  {
  }

  // ---------------------------------------------------------------------------
  // replace

  /** `replace(path: screens)` installs exactly `screens`, in order. */
  lemma ReplaceInstallsScreens<P>(screens: seq<AnyScreen<P>>, ids: IdSupply)
    ensures Contents(ReplaceWith(screens, ids)) == screens
  {
  }

  /** `replace(path: [])` leaves an empty path. */
  lemma ReplaceWithNothingEmptiesPath<P>(state: RouterState<P>, ids: IdSupply)
    ensures Reduce(state, Replace([]), ids).state.path == []
    ensures !Valid(Reduce(state, Replace([]), ids).state.path)
  {
  }

  // ---------------------------------------------------------------------------
  // The path invariant

  /** Identifiers the supply hands out are not the root's, pairwise distinct, and new to `path`. */
  ghost predicate FreshSupply<P>(ids: IdSupply, path: Path<P>)
  {
    && (forall k :: ids(k) != Root && !HasId(path, ids(k)))
    && (forall k, l :: k != l ==> ids(k) != ids(l))
  }

  /** An action that cannot empty the path: anything but `replace(path: [])`. */
  predicate KeepsPath<P>(action: RouterAction<P>)
  {
    !(action.Replace? && |action.screens| == 0)
  }

  /** A non-empty prefix of a valid path is valid. */
  lemma {:induction false} PrefixValid<P>(path: Path<P>, prefix: Path<P>)
    requires Valid(path) && prefix <= path && |prefix| > 0
    ensures Valid(prefix)
  {
    assert prefix[0] == path[0];
    forall i, j | 0 <= i < j < |prefix|
      ensures prefix[i].id != prefix[j].id
    {
      assert prefix[i] == path[i] && prefix[j] == path[j];
    }
  }

  /** A non-empty `replace` with a fresh supply yields a valid path. */
  lemma ReplaceValid<P>(screens: seq<AnyScreen<P>>, ids: IdSupply)
    requires |screens| > 0
    requires forall k :: ids(k) != Root
    requires forall k, l :: k != l ==> ids(k) != ids(l)
    ensures Valid(ReplaceWith(screens, ids))
  {
    var r := ReplaceWith(screens, ids);
    forall i, j | 0 <= i < j < |r|
      ensures r[i].id != r[j].id
    {
      if i > 0 {
        assert r[i].id == ids(i - 1) && r[j].id == ids(j - 1);
      } else {
        assert r[j].id == ids(j - 1);
      }
    }
  }

  /** A push with a fresh identifier keeps the path valid. */
  lemma GoValid<P>(path: Path<P>, s: AnyScreen<P>, ids: IdSupply)
    requires Valid(path) && !HasId(path, ids(0))
    ensures Valid(GoTo(path, s, ids))
  {
    var r := GoTo(path, s, ids);
    forall i, j | 0 <= i < j < |r|
      ensures r[i].id != r[j].id
    {
      if j == |path| {
        assert r[i] == path[i];
      } else {
        assert r[i] == path[i] && r[j] == path[j];
      }
    }
  }

  /** `didAppear` keeps the path valid. */
  lemma MarkAppearedValid<P>(path: Path<P>, id: ScreenID)
    requires Valid(path)
    ensures Valid(MarkAppeared(path, id))
  {
  }

  /** Every action but `replace(path: [])`, with a fresh supply, keeps the path valid. */
  lemma {:induction false} ReducePreservesValid<P>(state: RouterState<P>, action: RouterAction<P>, ids: IdSupply)
    requires Valid(state.path) && KeepsPath(action)
    requires FreshSupply(ids, state.path)
    ensures Valid(Reduce(state, action, ids).state.path)
  {
    var path := state.path;
    match action
    case Go(s) =>
      GoValid(path, s, ids);
    case GoBack(s) =>
      PrefixValid(path, GoBackTo(path, s));
    case Replace(screens) =>
      ReplaceValid(screens, ids);
    case Dismiss(id) =>
      PrefixValid(path, DismissScreen(path, id));
    case DismissSuccessor(id) =>
      PrefixValid(path, DismissSuccessorOf(path, id));
    case DidAppear(id) =>
      MarkAppearedValid(path, id);
  }
}

=== FILE: router_runs.dfy ===
/**
 * Sequences of router actions.
 *
 * The store applies `routerReducer` to one action after another. Here the
 * environment's identifier supply is a counter: the reduction that starts
 * with counter `next` draws `Fresh(next)`, `Fresh(next + 1)`, ..., and the
 * next reduction starts where it stopped. This is one supply that meets the
 * freshness the invariant needs; how the library itself generates
 * identifiers is not modelled.
 */
module RouterRuns {
  import opened Wrappers
  import opened Screens
  import opened Identity
  import opened Router
  import opened RouterProperties

  /** The supply whose k-th identifier is `Fresh(next + k)`. */
  function CounterSupply(next: nat): IdSupply
  {
    (k: nat) => Fresh(next + k)
  }

  /** Every non-root identifier of the path was drawn before the counter reached `next`. */
  ghost predicate IdsBelow<P>(path: Path<P>, next: nat)
  {
    forall k :: 0 <= k < |path| && path[k].id.Fresh? ==> path[k].id.n < next
  }

  /** Reduce the actions in order, threading the counter; `drawn` is the total drawn. */
  function Run<P(==)>(state: RouterState<P>, actions: seq<RouterAction<P>>, next: nat): (r: Reduction<P>)
    ensures |actions| == 0 ==> r == Reduction(state, 0)
    decreases |actions|
  {
    if |actions| == 0 then Reduction(state, 0)
    else
      var step := Reduce(state, actions[0], CounterSupply(next));
      var rest := Run(step.state, actions[1..], next + step.drawn);
      Reduction(rest.state, step.drawn + rest.drawn)
  }

  /** A counter past every identifier of the path is a fresh supply for it. */
  lemma CounterSupplyIsFresh<P>(path: Path<P>, next: nat)
    requires IdsBelow(path, next)
    ensures FreshSupply(CounterSupply(next), path)
  {
    forall k: nat
      ensures !HasId(path, CounterSupply(next)(k))
    {
      forall i | 0 <= i < |path|
        ensures path[i].id != Fresh(next + k)
      {
        if path[i].id.Fresh? {
          assert path[i].id.n < next;
        }
      }
    }
  }

  /** After one reduction, every identifier was drawn before the advanced counter. */
  lemma {:induction false} ReduceKeepsIdsBelow<P>(state: RouterState<P>, action: RouterAction<P>, next: nat)
    requires IdsBelow(state.path, next)
    ensures IdsBelow(Reduce(state, action, CounterSupply(next)).state.path,
                     next + Reduce(state, action, CounterSupply(next)).drawn)
  {
    var ids := CounterSupply(next);
    var r := Reduce(state, action, ids);
    var path := state.path;
    match action
    case Go(s) =>
      GoKeepsIdsBelow(path, s, next);
    case Replace(screens) =>
      var q := ReplaceWith(screens, ids);
      forall k | 0 <= k < |q| && q[k].id.Fresh?
        ensures q[k].id.n < next + r.drawn
      {
        assert q[k].id == ids(k - 1);
      }
    case GoBack(s) =>
      PrefixKeepsIdsBelow(path, GoBackTo(path, s), next);
    case Dismiss(id) =>
      PrefixKeepsIdsBelow(path, DismissScreen(path, id), next);
    case DismissSuccessor(id) =>
      PrefixKeepsIdsBelow(path, DismissSuccessorOf(path, id), next);
    case DidAppear(id) =>
  }

  /** A push draws `Fresh(next)`, so every identifier stays below `next + 1`. */
  lemma GoKeepsIdsBelow<P>(path: Path<P>, s: AnyScreen<P>, next: nat)
    requires IdsBelow(path, next)
    ensures IdsBelow(GoTo(path, s, CounterSupply(next)), next + 1)
  {
    var q := GoTo(path, s, CounterSupply(next));
    forall k | 0 <= k < |q| && q[k].id.Fresh?
      ensures q[k].id.n < next + 1
    {
      if k < |path| {
        assert q[k] == path[k];
      }
    }
  }

  /** A prefix keeps every identifier below the same counter. */
  lemma PrefixKeepsIdsBelow<P>(path: Path<P>, prefix: Path<P>, next: nat)
    requires IdsBelow(path, next) && prefix <= path
    ensures IdsBelow(prefix, next)
  {
    forall k | 0 <= k < |prefix| && prefix[k].id.Fresh?
      ensures prefix[k].id.n < next
    {
      assert prefix[k] == path[k];
    }
  }

  /**
   * Starting from a valid path, any sequence of actions without
   * `replace(path: [])` ends in a valid path: non-empty, rooted, unique ids.
   */
  lemma {:induction false} RunPreservesValid<P>(state: RouterState<P>, actions: seq<RouterAction<P>>, next: nat)
    requires Valid(state.path) && IdsBelow(state.path, next)
    requires forall i :: 0 <= i < |actions| ==> KeepsPath(actions[i])
    ensures Valid(Run(state, actions, next).state.path)
    ensures IdsBelow(Run(state, actions, next).state.path, next + Run(state, actions, next).drawn)
    decreases |actions|
  {
    if |actions| > 0 {
      var step := Reduce(state, actions[0], CounterSupply(next));
      StepPreservesValid(state, actions[0], next);
      assert forall i :: 0 <= i < |actions[1..]| ==> actions[1..][i] == actions[i + 1];
      RunPreservesValid(step.state, actions[1..], next + step.drawn);
    }
  }

  /** One counter-supplied step keeps the path valid and its identifiers below the advanced counter. */
  lemma StepPreservesValid<P>(state: RouterState<P>, action: RouterAction<P>, next: nat)
    requires Valid(state.path) && IdsBelow(state.path, next) && KeepsPath(action)
    ensures var step := Reduce(state, action, CounterSupply(next));
            Valid(step.state.path) && IdsBelow(step.state.path, next + step.drawn)
  {
    CounterSupplyIsFresh(state.path, next);
    ReducePreservesValid(state, action, CounterSupply(next));
    ReduceKeepsIdsBelow(state, action, next);
  }

  /**
   * The invariant that holds whatever the actions: the path is either empty
   * (after `replace(path: [])`) or valid.
   */
  predicate EmptyOrValid<P>(path: Path<P>)
  {
    |path| == 0 || Valid(path)
  }

  /** One counter-supplied step, of any action, keeps the path empty or valid. */
  lemma StepEmptyOrValid<P>(state: RouterState<P>, action: RouterAction<P>, next: nat)
    requires EmptyOrValid(state.path) && IdsBelow(state.path, next)
    ensures var step := Reduce(state, action, CounterSupply(next));
            EmptyOrValid(step.state.path) && IdsBelow(step.state.path, next + step.drawn)
  {
    ReduceKeepsIdsBelow(state, action, next);
    if |state.path| > 0 && KeepsPath(action) {
      StepPreservesValid(state, action, next);
    } else if |state.path| == 0 && action.Replace? && |action.screens| > 0 {
      CounterSupplyIsFresh(state.path, next);
      ReplaceValid(action.screens, CounterSupply(next));
    }
  }

  /** Any sequence of actions, `replace(path: [])` included, keeps the path empty or valid. */
  lemma {:induction false} RunEmptyOrValid<P>(state: RouterState<P>, actions: seq<RouterAction<P>>, next: nat)
    requires EmptyOrValid(state.path) && IdsBelow(state.path, next)
    ensures EmptyOrValid(Run(state, actions, next).state.path)
    ensures IdsBelow(Run(state, actions, next).state.path, next + Run(state, actions, next).drawn)
    decreases |actions|
  {
    if |actions| > 0 {
      var step := Reduce(state, actions[0], CounterSupply(next));
      StepEmptyOrValid(state, actions[0], next);
      RunEmptyOrValid(step.state, actions[1..], next + step.drawn);
    }
  }

  /**
   * Every state reachable from `RouterState(root:)`, by any actions, has
   * unique identifiers and starts with `.root` whenever it is non-empty.
   */
  lemma ReachableStatesRootedAndUnique<P>(root: Screen<P>, actions: seq<RouterAction<P>>)
    ensures var path := Run(InitialState(root), actions, 0).state.path;
            UniqueIds(path) && (|path| > 0 ==> path[0].id == Root)
  {
    RunEmptyOrValid(InitialState(root), actions, 0);
  }

  /** Every state reachable from `RouterState(root:)` without `replace(path: [])` is valid. */
  lemma ReachableStatesValid<P>(root: Screen<P>, actions: seq<RouterAction<P>>)
    requires forall i :: 0 <= i < |actions| ==> KeepsPath(actions[i])
    ensures Valid(Run(InitialState(root), actions, 0).state.path)
  {
    RunPreservesValid(InitialState(root), actions, 0);
  }

  /**
   * From `[root: Home]`, pushing Detail and then Capacity and dismissing
   * Detail returns to `[root: Home]`.
   */
  lemma DismissScenario()
    ensures
      var home := Erase(Screen("Home", 0, Push));
      var detail := Erase(Screen("Detail", 1, Push));
      var capacity := Erase(Screen("Capacity", 101, Push));
      Run(InitialState(Screen("Home", 0, Push)), [Go(detail), Go(capacity), Dismiss(Fresh(0))], 0).state.path
        == [Identify(Root, home)]
  {
    var home := Erase(Screen("Home", 0, Push));
    var detail := Erase(Screen("Detail", 1, Push));
    var capacity := Erase(Screen("Capacity", 101, Push));
    var s0 := InitialState(Screen("Home", 0, Push));
    var s1 := Reduce(s0, Go(detail), CounterSupply(0));
    assert s1.state.path == [Identify(Root, home), Identify(Fresh(0), detail)];
    var s2 := Reduce(s1.state, Go(capacity), CounterSupply(1));
    assert s2.state.path == [Identify(Root, home), Identify(Fresh(0), detail), Identify(Fresh(1), capacity)];
    assert IndexOfId(s2.state.path, Fresh(0)) == Some(1);
    var s3 := Reduce(s2.state, Dismiss(Fresh(0)), CounterSupply(2));
    assert s3.state.path == [Identify(Root, home)];
    var actions := [Go(detail), Go(capacity), Dismiss(Fresh(0))];
    assert actions[1..] == [Go(capacity), Dismiss(Fresh(0))];
    assert actions[1..][1..] == [Dismiss(Fresh(0))];
    assert Run(s2.state, [Dismiss(Fresh(0))], 2).state == s3.state;
    assert Run(s1.state, actions[1..], 1).state == s3.state;
  }
}

=== FILE: screens.dfy ===
/**
 * Screens and their type-erased box `AnyScreen`.
 *
 * A Swift screen is a value of some concrete type conforming to `Screen`. The
 * model keeps the type's identity as a tag, the screen's data as a payload of
 * the type parameter `P`, and the presentation style the screen declares.
 * A dynamic cast `as? S` succeeds exactly when the stored tag is the tag of `S`.
 */
module Screens {
  import opened Wrappers

  /** Identity of a concrete screen type (its type name). */
  type TypeTag = string

  /** SwiftUI's `PresentationDetent`, carried but never interpreted. */
  datatype Detent = Detent(name: string)

  /** How a screen is presented on top of its predecessor. */
  datatype PresentationStyle =
    | Push
    | Sheet(allowsPush: bool, detents: Option<set<Detent>>)
    | FullScreenCover(allowsPush: bool)

  /** A value of a concrete screen type. */
  datatype Screen<P> = Screen(tag: TypeTag, payload: P, presentationStyle: PresentationStyle)

  /**
   * `AnyScreen`: the screen as an `AnyHashable` (the whole typed value) plus
   * the presentation style copied out of it when the box was made.
   */
  datatype AnyScreen<P> = AnyScreen(screen: Screen<P>, presentationStyle: PresentationStyle)

  /** `AnyScreen.init(_:)` / `eraseToAnyScreen()`. */
  function Erase<P>(s: Screen<P>): (a: AnyScreen<P>)
    ensures a.screen == s
    ensures a.presentationStyle == s.presentationStyle
  {
    AnyScreen(s, s.presentationStyle)
  }

  /** `unwrap<S>()`: the boxed screen if it is of the type tagged `t`, otherwise nil. */
  function Unwrap<P>(a: AnyScreen<P>, t: TypeTag): (r: Option<Screen<P>>)
    ensures r.Some? <==> a.screen.tag == t
    ensures r.Some? ==> r.value == a.screen
  {
    if a.screen.tag == t then Some(a.screen) else None
  }

  /** `is(_:)`: whether the cast succeeds; equivalent to `unwrap() != nil`, since both are the same cast. */
  function Is<P>(a: AnyScreen<P>, t: TypeTag): (b: bool)
    ensures b <==> a.screen.tag == t
  {
    Unwrap(a, t).Some?
  }

  /**
   * The synthesized `==` of `AnyScreen`: the `AnyHashable`s compare equal
   * (same concrete type, equal payload and style) and the copied styles agree.
   */
  function Equal<P(==)>(a: AnyScreen<P>, b: AnyScreen<P>): (eq: bool)
    ensures eq <==> a == b
    ensures eq ==> Equal(b, a)
  {
    && a.screen.tag == b.screen.tag
    && a.screen.payload == b.screen.payload
    && a.screen.presentationStyle == b.screen.presentationStyle
    && a.presentationStyle == b.presentationStyle
  }

  /** The synthesized equality is plain value equality of the model. */
  lemma EqualIsValueEquality<P>(a: AnyScreen<P>, b: AnyScreen<P>)
    ensures Equal(a, b) <==> a == b
  {
  }

  /** Erasure loses nothing: two screens erase to equal boxes exactly when they are equal. */
  lemma EraseInjective<P>(s1: Screen<P>, s2: Screen<P>)
    ensures Erase(s1) == Erase(s2) <==> s1 == s2
  {
  }

  /** Round trip: unwrapping an erased screen at its own type returns it; at any other type, nil. */
  lemma UnwrapErase<P>(s: Screen<P>, t: TypeTag)
    ensures t == s.tag ==> Unwrap(Erase(s), t) == Some(s)
    ensures t != s.tag ==> Unwrap(Erase(s), t).None?
  {
  }

  /** `is` holds exactly when `unwrap` is non-nil. */
  lemma IsIffUnwrap<P>(a: AnyScreen<P>, t: TypeTag)
    ensures Is(a, t) <==> Unwrap(a, t).Some?
  {
  }
}

=== FILE: seqs.dfy ===
/**
 * The Swift collection operations the router is built from, stated once over
 * generic sequences: `firstIndex(where:)`, its tip-first counterpart, and
 * `reversed()`.
 */
module Seqs {
  import opened Wrappers

  /** `firstIndex(where:)`: the least index whose element satisfies `p`. */
  function FirstIndex<T>(s: seq<T>, p: T -> bool): (r: Option<nat>)
    ensures r.Some? ==> r.value < |s| && p(s[r.value])
    ensures r.Some? ==> forall j :: 0 <= j < r.value ==> !p(s[j])
    ensures r.None? <==> forall j :: 0 <= j < |s| ==> !p(s[j])
  {
    FirstIndexFrom(s, p, 0)
  }

  /** The least index at or after `from` whose element satisfies `p`. */
  function FirstIndexFrom<T>(s: seq<T>, p: T -> bool, from: nat): (r: Option<nat>)
    requires from <= |s|
    ensures r.Some? ==> from <= r.value < |s| && p(s[r.value])
    ensures r.Some? ==> forall j :: from <= j < r.value ==> !p(s[j])
    ensures r.None? <==> forall j :: from <= j < |s| ==> !p(s[j])
    decreases |s| - from
  {
    if from == |s| then None
    else if p(s[from]) then Some(from)
    else FirstIndexFrom(s, p, from + 1)
  }

  /** The greatest index whose element satisfies `p`, found by scanning from the tip. */
  function LastIndex<T>(s: seq<T>, p: T -> bool): (r: Option<nat>)
    ensures r.Some? ==> r.value < |s| && p(s[r.value])
    ensures r.Some? ==> forall j :: r.value < j < |s| ==> !p(s[j])
    ensures r.None? <==> forall j :: 0 <= j < |s| ==> !p(s[j])
  {
    LastIndexBelow(s, p, |s|)
  }

  /** The greatest index below `bound` whose element satisfies `p`. */
  function LastIndexBelow<T>(s: seq<T>, p: T -> bool, bound: nat): (r: Option<nat>)
    requires bound <= |s|
    ensures r.Some? ==> r.value < bound && p(s[r.value])
    ensures r.Some? ==> forall j :: r.value < j < bound ==> !p(s[j])
    ensures r.None? <==> forall j :: 0 <= j < bound ==> !p(s[j])
    decreases bound
  {
    if bound == 0 then None
    else if p(s[bound - 1]) then Some(bound - 1)
    else LastIndexBelow(s, p, bound - 1)
  }

  /** `reversed()`: the same elements, tip first. */
  function Reverse<T>(s: seq<T>): (r: seq<T>)
    ensures |r| == |s|
    ensures forall k :: 0 <= k < |s| ==> r[k] == s[|s| - 1 - k]
  {
    seq(|s|, k requires 0 <= k < |s| => s[|s| - 1 - k])
  }

  /** When a search of the reversed sequence fails, the original has no match either. */
  lemma ReversedSearchMisses<T>(s: seq<T>, p: T -> bool)
    requires FirstIndex(Reverse(s), p).None?
    ensures LastIndex(s, p).None?
  {
    var rs := Reverse(s);
    forall j | 0 <= j < |s|
      ensures !p(s[j])
    {
      assert s[j] == rs[|s| - 1 - j];
    }
  }

  /**
   * A search of the reversed sequence from the front stops at the last match
   * of the original, and reversing the rest of the reversed sequence yields
   * the original up to and including that match.
   */
  lemma ReversedSearchFinds<T>(s: seq<T>, p: T -> bool, i: nat)
    requires FirstIndex(Reverse(s), p) == Some(i)
    ensures i < |s| && LastIndex(s, p) == Some(|s| - 1 - i)
    ensures Reverse(Reverse(s)[i..]) == s[..|s| - i]
  {
    var rs := Reverse(s);
    assert s[|s| - 1 - i] == rs[i];
    forall j | |s| - 1 - i < j < |s|
      ensures !p(s[j])
    {
      assert s[j] == rs[|s| - 1 - j];
    }
    LastIndexIsLastMatch(s, p, |s| - 1 - i);
    ReverseOfReversedSuffix(s, i);
  }

  /** A match with no match after it is what `LastIndex` finds. */
  lemma LastIndexIsLastMatch<T>(s: seq<T>, p: T -> bool, j: nat)
    requires j < |s| && p(s[j])
    requires forall k :: j < k < |s| ==> !p(s[k])
    ensures LastIndex(s, p) == Some(j)
  {
    var l := LastIndex(s, p);
    assert l != None by {
      assert p(s[j]);
    }
    assert l.value >= j;
  }

  /** Reversing a suffix of the reversed sequence gives back a prefix of the original. */
  lemma ReverseOfReversedSuffix<T>(s: seq<T>, i: nat)
    requires i <= |s|
    ensures Reverse(Reverse(s)[i..]) == s[..|s| - i]
  {
    var t := Reverse(s)[i..];
    forall k | 0 <= k < |s| - i
      ensures Reverse(t)[k] == s[k]
    {
      assert t[|t| - 1 - k] == Reverse(s)[i + (|t| - 1 - k)];
    }
  }
}

=== FILE: wrappers.dfy ===
/** Swift's `Optional`, the result of every lookup and match in the library. */
module Wrappers {

  datatype Option<+T> = None | Some(value: T)
}
